=== FILE: README.md ===
# InsureNav home page recommender, modelled in Dafny

The InsureNav home page shows three lists of insurance products for the
viewer, each cut to three entries:

- **Popular**: products rated at least 4.5 with at least 500 reviews, best
  rated first.
- **Similar** (content based): the products in the same category as the most
  reviewed product, best rated first. The most reviewed product itself is
  left out.
- **For You** (collaborative): the products bought by the two users most
  similar to the viewer's profile, best rated first. Similarity is the age
  gap plus one when the marital status differs. The viewer is user 1.

Editing the profile (age, marital status, occupation) reruns a single effect
that recomputes all three lists in that order.

Every ordering in the page is JavaScript's stable `Array.prototype.sort`
with a difference comparator. The model uses one verified stable insertion
sort, ascending on an integer key:

- `(a, b) => b.rating - a.rating` becomes the key `-rating`.
- The user comparator becomes the key `Dissimilarity`.

The sort is proved sorted, a permutation and stable. It is also proved to be
the *only* sorted, stable arrangement (`SortIsTheStableSort`), so it gives
exactly the order the browser gives.

The content step finds the most reviewed product by sorting the shared
`mockProducts` array **in place** (line 91). The catalog is therefore not a
fixed snapshot. The model threads it through a state record `Home`, and one
run of `Effect` returns the catalog as that sort left it:

- Popularity reads the catalog before the reorder.
- Collaborative reads it after.
- On the first run, the popularity list's ties in rating keep the declared
  catalog order. From the second run on, they keep the review order instead.
  The content and collaborative lists read the catalog after the reorder, so
  their ties keep the review order from the first run on.
- `TieOrderFlipsAfterFirstRun` proves this flip for any catalog of two
  popular products with equal ratings, the less reviewed one first in the
  catalog. In the page's own data, products 2 and 6 are such a pair (both
  4.7, with 980 and 1100 reviews, product 2 first). No lemma evaluates the full twelve-product catalog (see
  "Left out").
- `EffectSettles` proves that the state is stable from the second run on.

On an empty catalog the sort's element `[0]` is `undefined`. Nothing reads
it, because `filter` never calls its test on an empty array. The content
list is then empty, and the effect publishes three empty lists.

Every list keeps product ids unique when the catalog's ids are unique, and
the contracts state it under that premise. The page's own catalog has the
ids 1 to 12, each once (`MockProductIdsAreUnique`).

The page passes fixed arguments to the three strategies (3, 4.5, 500 and
2), so nothing checks them.

Modules:

- `Wrappers`: `Option`.
- `StableSort`: a generic stable sort, filter and top-`n`, with their lemmas.
- `Catalog`: products, users, profile and the mock data.
- `Recommenders`: the three strategies.
- `HomePage`: the profile handler, the effect and the state.

Ratings are integer tenths (4.8 is 48). Every rating has one decimal and the
code only compares ratings, so tenths order them exactly as the decimal
ratings do.

## Model

| member | source | states |
|---|---|---|
| StableSort.SortSortsAndPermutes | frontend/src/components/HomePage.tsx:86 | the sort returns the same elements, the same number of times, in non-decreasing key order |
| StableSort.SortIsStable | frontend/src/components/HomePage.tsx:86 | for every key value, the elements with that key appear in the same relative order as in the input |
| StableSort.SortIsTheStableSort | frontend/src/components/HomePage.tsx:86 | any sorted arrangement that keeps the relative order of equal keys is exactly `Sort`'s result, so `Sort` is the stable sort |
| StableSort.SortOfSorted | frontend/src/components/HomePage.tsx:91 | sorting an already sorted sequence leaves it unchanged |
| StableSort.InsertAt | frontend/src/components/HomePage.tsx:86 | an insertion places the element just before the first element whose key is at least its own |
| StableSort.SortSameKeys | frontend/src/components/HomePage.tsx:101-107 | the sort depends on the comparator only through the key values it assigns |
| StableSort.FilterKeepsPassing | frontend/src/components/HomePage.tsx:85 | `filter` keeps exactly the elements that pass the test, and no more of them than the input holds |
| StableSort.FilterAppend | frontend/src/components/HomePage.tsx:85 | filtering a concatenation is concatenating the filtered parts |
| StableSort.KeyClassIsFilter | frontend/src/components/HomePage.tsx:86 | the elements sharing one sort key, in order, are the filter of the input by that key |
| StableSort.FilterKeepsDistinct | frontend/src/components/HomePage.tsx:85 | filtering never introduces a repeated id |
| StableSort.Top | frontend/src/components/HomePage.tsx:86-87 | sort then `slice(0, n)`: min(n, length) elements of the input, sorted, none with a worse key than any left out, all of them when fewer than n, equal keys in input order |
| StableSort.TopIsPrefixOfStableSort | frontend/src/components/HomePage.tsx:86-87 | the first n of the stable sort is a prefix of every sorted, stable arrangement of the input |
| StableSort.SortHeadIsFirstLeast | frontend/src/components/HomePage.tsx:91 | element `[0]` of the sorted array is the first input element with the least key |
| StableSort.SubmultisetKeepsDistinct | frontend/src/components/HomePage.tsx:86-87 | taking part of a list with no repeated ids gives a list with no repeated ids |
| Recommenders.TopRated | frontend/src/components/HomePage.tsx:86-87 | exactly min(n, number of candidates) elements, drawn from the candidates without repeating any more often than it occurs there; rating non-increasing, none rated below a left-out candidate, all of them when fewer than n, ties in candidate order, ids stay unique |
| Recommenders.Popularity | frontend/src/components/HomePage.tsx:83-88 | exactly min(n, number of passing products) catalog products, each meeting both thresholds, drawn from the passing ones; empty when none passes; best rated first; the best n of those passing; ties in current catalog order; unique ids kept |
| Recommenders.PopularityIsPrefixOfRanking | frontend/src/components/HomePage.tsx:84-87 | the popularity list is a prefix of every stable rating ranking of the passing products |
| Recommenders.SortByReviews | frontend/src/components/HomePage.tsx:91 | the in-place sort leaves a permutation of the catalog, reviews non-increasing, equal review counts in their prior order |
| Recommenders.SortByReviewsIdempotent | frontend/src/components/HomePage.tsx:91 | sorting the reordered catalog again changes nothing |
| Recommenders.ReferenceIsFirstMostReviewed | frontend/src/components/HomePage.tsx:91 | the reference product `[0]` has the most reviews, and no product before it in the catalog has as many |
| Recommenders.ContentBased | frontend/src/components/HomePage.tsx:90-96 | returns the catalog reordered by reviews; an empty catalog gives an empty list; otherwise the reference is the first most reviewed product, and the list holds exactly min(n, number of relatives) products of the reference's category, never the reference, best rated first, the best n of them, ties in the reordered catalog's order, unique ids kept |
| Recommenders.ContentIsPrefixOfRanking | frontend/src/components/HomePage.tsx:92-95 | the content list is a prefix of every stable rating ranking of the reference's relatives |
| Recommenders.ContentBasedIdempotent | frontend/src/components/HomePage.tsx:90-96 | a second content step on the catalog the first left behind gives the same catalog and the same list, for every catalog |
| Recommenders.DissimilarityMeasuresMismatch | frontend/src/components/HomePage.tsx:102-106 | the score is 0 exactly when the profile's age (0 when absent) and present marital status both match; a status mismatch or absence costs at least 1; with matching status the score is the age gap |
| Recommenders.AbsentProfileFields | frontend/src/components/HomePage.tsx:102-105 | an absent age scores as age 0; an absent marital status scores like a different one, one more than a matching one |
| Recommenders.Neighbours | frontend/src/components/HomePage.tsx:99-108 | min(k, number of other users) users, never user 1, ascending dissimilarity, none less similar than an other user left out, ties in log order |
| Recommenders.NeighboursIsPrefixOfRanking | frontend/src/components/HomePage.tsx:99-108 | the neighbours are a prefix of every stable dissimilarity ranking of the other users |
| Recommenders.SameScoresSameCollaborative | frontend/src/components/HomePage.tsx:98-115 | two profiles that score every user alike give the same neighbours and the same collaborative list |
| Recommenders.CollaborativeReadsAgeAndStatus | frontend/src/components/HomePage.tsx:102-105 | the collaborative list depends only on the profile's age (absent read as 0) and marital status |
| Recommenders.Collaborative | frontend/src/components/HomePage.tsx:110-114 | exactly min(n, number of bought products) catalog products, each bought by a neighbour, drawn from those; best rated first, the best n of those, all of them when fewer than n, ties in catalog order, unique ids kept |
| Recommenders.CollaborativeIsPrefixOfRanking | frontend/src/components/HomePage.tsx:111-114 | the collaborative list is a prefix of every stable rating ranking of the products the neighbours bought |
| HomePage.HandleProfileChange | frontend/src/components/HomePage.tsx:71-73 | the named field takes the new value, and the other two keep theirs |
| HomePage.LastChangeWins | frontend/src/components/HomePage.tsx:71-73 | of two changes to one field, the later wins |
| HomePage.DistinctFieldsCommute | frontend/src/components/HomePage.tsx:71-73 | changes to different fields commute |
| HomePage.Effect | frontend/src/components/HomePage.tsx:75-81 | keeps users and profile; leaves the catalog a review-sorted, stable permutation; popularity reads the catalog before the reorder, the content step makes the reorder, and collaborative reads the reordered catalog; an empty catalog publishes three empty lists |
| HomePage.ChangeProfile | frontend/src/components/HomePage.tsx:71-81 | a profile edit stores the new profile, keeps the users, reorders the catalog by reviews and recomputes all three lists: popularity from the catalog before the reorder and unaffected by the edit, content from the reorder, collaborative from the reordered catalog with the new profile |
| HomePage.EffectIgnoresShownLists | frontend/src/components/HomePage.tsx:75-81 | the lists shown before the effect play no part in the new ones |
| HomePage.OnlyCollaborativeReadsProfile | frontend/src/components/HomePage.tsx:75-81 | any other profile gives the same catalog, popularity list and content list |
| HomePage.EffectReadsAgeAndStatus | frontend/src/components/HomePage.tsx:75-81 | profiles that agree on age (absent read as 0) and marital status give the same three lists |
| HomePage.OccupationChangeKeepsLists | frontend/src/components/HomePage.tsx:71-81 | editing the occupation recomputes the same three lists |
| HomePage.LaterEffectsKeepCatalog | frontend/src/components/HomePage.tsx:91 | after the first effect, later effects with any profile leave the catalog order as it is, for every catalog |
| HomePage.EffectSettles | frontend/src/components/HomePage.tsx:75-91 | from the second run on, rerunning the effect with the same profile changes nothing, for every state |
| HomePage.PopularityOfTiedPair | frontend/src/components/HomePage.tsx:84-87 | two passing products of equal rating keep their catalog order in the popularity list |
| HomePage.ReviewsOrderOfPair | frontend/src/components/HomePage.tsx:91 | the in-place sort puts the more reviewed of two products first |
| Catalog.MockProductIdsAreUnique | frontend/src/components/HomePage.tsx:23-36 | the page's catalog has no repeated id |
| HomePage.EffectKeepsIdsUnique | frontend/src/components/HomePage.tsx:75-96 | from a catalog without repeated ids, the reordered catalog and all three lists have no repeated product |
| HomePage.MountedListsHaveUniqueIds | frontend/src/components/HomePage.tsx:23-81 | the first effect on the page's initial state shows three lists without a repeated product |
| HomePage.TieOrderFlipsAfterFirstRun | frontend/src/components/HomePage.tsx:83-96 | in a two-product catalog of passing products with equal rating, the less reviewed one first, the popularity list is in catalog order after the first run and swaps once the catalog has been reordered by reviews |

## Left out

- Rendering is not modelled, because it is presentation only (lines 117-256). This covers `renderRecommendations`, the icon table `insuranceTypes` (lines 14-21), animation, star drawing and the theme toggle.
- The age field's `parseInt` (line 191) can yield `NaN`, which makes the comparator's order engine-defined. The profile age is an `Option<int>` instead, and an absent age reads as 0 through `?? 0`.
- React scheduling and batching are not modelled. Each profile change is one synchronous step: `ChangeProfile` is `HandleProfileChange` followed by `Effect`. The spread always creates a new profile object, so the effect always runs.
- JavaScript `slice` with a negative count is not modelled. `n` and `k` are natural numbers, and the page passes 3 and 2.
- Ratings are floating point in the source and integer tenths here (see above).
- The mock data (lines 23-44 and 66) appears as the constants `MockProducts`, `MockUsers` and `InitialProfile`. No lemma evaluates the stable sorts over these literal lists. Each insertion step over a literal list of eight or twelve products costs the verifier many times more than any proof in the model. Worked out by hand, the first run's popularity ids are [3, 1, 2] and later runs give [3, 1, 6]. This is stated for the two-product case only, by `TieOrderFlipsAfterFirstRun`.
- app.py is not part of this model. It is a Flask service doing TF-IDF similarity, correlation and a pickled random forest over floating-point data.
- The Express routes, Mongoose models and server wiring under InsureNav-Backend are not part of this model. They are database I/O and library calls.
- The Clerk authentication widget in frontend/src/App.tsx is not part of this model.

=== FILE: catalog.dfy ===
/** The recommender's data: insurance products, the users whose purchases
    feed the collaborative list, and the viewer's profile.

    Ratings are kept in integer tenths (4.8 is 48). The recommender only
    compares ratings and takes the sign of their difference, and every
    rating in the catalog has one decimal, so tenths order them exactly as
    the decimal ratings do. */
module Catalog {
  import opened Wrappers
  import opened StableSort

  /** An insurance product; `productType` is the category id (1 health,
      2 life, 3 property, 4 umbrella, 5 income protection, 6 auto). */
  datatype Product = Product(id: int, name: string, productType: int, rating: int, reviews: int)

  /** A user of the interaction log with the ids of the products they bought. */
  datatype User = User(id: int, age: int, maritalStatus: string, occupation: string, purchasedProducts: seq<int>)

  /** The viewer's profile; every field may be absent. */
  datatype Profile = Profile(age: Option<int>, maritalStatus: Option<string>, occupation: Option<string>)

  function ProductId(p: Product): int {
    p.id
  }

  /** No product id occurs twice. */
  ghost predicate UniqueIds(products: seq<Product>) {
    DistinctBy(products, ProductId)
  }

  /** The product catalog in its initial order. */
  const MockProducts: seq<Product> := [
    Product(1, "HealthGuard Plus", 1, 48, 1200),
    Product(2, "LifeSecure Premium", 2, 47, 980),
    Product(3, "HomeSafe Elite", 3, 49, 1500),
    Product(4, "UmbrellaPro Max", 4, 46, 750),
    Product(5, "IncomeSheild Advanced", 5, 45, 620),
    Product(6, "AutoGuard Deluxe", 6, 47, 1100),
    Product(7, "HealthEssentials", 1, 44, 890),
    Product(8, "LifeCover Basic", 2, 43, 560),
    Product(9, "PropertyProtect Standard", 3, 45, 720),
    Product(10, "UmbrellaShield Lite", 4, 42, 480),
    Product(11, "IncomeGuard Flex", 5, 46, 810),
    Product(12, "AutoSafe Economy", 6, 44, 950)
  ]

  /** The catalog's ids are 1 to 12, each once. */
  lemma MockProductIdsAreUnique()
    ensures UniqueIds(MockProducts)
  {
    assert forall i | 0 <= i < |MockProducts| :: MockProducts[i].id == i + 1;
  }

  /** The interaction log; user 1 is the viewer. */
  const MockUsers: seq<User> := [
    User(1, 30, "single", "employed", [1, 3, 6]),
    User(2, 45, "married", "self-employed", [2, 3, 4, 5]),
    User(3, 25, "single", "student", [1, 7, 12]),
    User(4, 60, "married", "retired", [2, 3, 4, 6, 11]),
    User(5, 35, "married", "employed", [1, 2, 3, 6, 9])
  ]

  /** The profile the page starts with. */
  const InitialProfile: Profile := Profile(Some(30), Some("single"), Some("employed"))
}

=== FILE: homepage.dfy ===
/** The home page's state and its two transitions: a profile edit, and the
    effect that recomputes the three recommendation lists whenever the
    profile changes.

    The catalog is part of the state because the content step sorts the
    shared product array in place: each run of the effect leaves the
    catalog ordered by reviews, and the next run reads it in that order.
    Line numbers refer to frontend/src/components/HomePage.tsx. */
module HomePage {
  import opened Wrappers
  import opened StableSort
  import opened Catalog
  import opened Recommenders

  /** One call of the profile change handler: the field it names and the
      value it stores there. `None` is the `undefined` that the optional
      field's type allows. */
  datatype ProfileChange =
    | SetAge(age: Option<int>)
    | SetMaritalStatus(maritalStatus: Option<string>)
    | SetOccupation(occupation: Option<string>)

  /** `{ ...prev, [field]: value }`: the named field takes the new value and
      the other two keep theirs. */
  function HandleProfileChange(profile: Profile, change: ProfileChange): (r: Profile)
    ensures r.age == (if change.SetAge? then change.age else profile.age)
    ensures r.maritalStatus == (if change.SetMaritalStatus? then change.maritalStatus else profile.maritalStatus)
    ensures r.occupation == (if change.SetOccupation? then change.occupation else profile.occupation)
  {
    match change
    case SetAge(a) => profile.(age := a)
    case SetMaritalStatus(m) => profile.(maritalStatus := m)
    case SetOccupation(o) => profile.(occupation := o)
  }

  /** The field a change writes. */
  function Field(change: ProfileChange): nat {
    match change
    case SetAge(_) => 0
    case SetMaritalStatus(_) => 1
    case SetOccupation(_) => 2
  }

  /** Of two changes to the same field, the later one wins. */
  lemma LastChangeWins(profile: Profile, first: ProfileChange, second: ProfileChange)
    requires Field(first) == Field(second)
    ensures HandleProfileChange(HandleProfileChange(profile, first), second) == HandleProfileChange(profile, second)
  {
  }

  /** Changes to different fields can be applied in either order. */
  lemma DistinctFieldsCommute(profile: Profile, a: ProfileChange, b: ProfileChange)
    requires Field(a) != Field(b)
    ensures HandleProfileChange(HandleProfileChange(profile, a), b) == HandleProfileChange(HandleProfileChange(profile, b), a)
  {
  }

  /** The three lists the page shows. */
  datatype Recommendations = Recommendations(popularity: seq<Product>, contentBased: seq<Product>, collaborative: seq<Product>)

  /** The page's state: the shared catalog in its current order, the
      interaction log, the viewer's profile and the lists on screen. */
  datatype Home = Home(catalog: seq<Product>, users: seq<User>, profile: Profile, recommendations: Recommendations)

  /** The arguments the effect passes to the three strategies. */
  const ListLength: nat := 3
  const MinRating: int := 45
  const MinReviews: int := 500
  const NeighbourCount: nat := 2

  /** Lines 75-81: popularity over the catalog as it stands, then the content
      step, which reorders the catalog by reviews, then collaborative over
      the reordered catalog. An empty catalog publishes three empty lists. */
  function Effect(h: Home): (r: Home)
    ensures r.users == h.users
    ensures r.profile == h.profile
    ensures multiset(r.catalog) == multiset(h.catalog)
    ensures ReviewsNonIncreasing(r.catalog)
    ensures SameKeyClasses(h.catalog, r.catalog, ByReviewsDesc)
    ensures r.recommendations.popularity == Popularity(h.catalog, ListLength, MinRating, MinReviews)
    ensures r.recommendations.contentBased == ContentBased(h.catalog, ListLength).recommendations
    ensures r.recommendations.collaborative == Collaborative(r.catalog, h.users, h.profile, ListLength, NeighbourCount)
    ensures |h.catalog| == 0 ==> r.catalog == [] && r.recommendations == Recommendations([], [], [])
  {
    var popularity := Popularity(h.catalog, ListLength, MinRating, MinReviews);
    var step := ContentBased(h.catalog, ListLength);
    var collaborative := Collaborative(step.catalog, h.users, h.profile, ListLength, NeighbourCount);
    Home(step.catalog, h.users, h.profile, Recommendations(popularity, step.recommendations, collaborative))
  }

  /** A profile edit followed by the effect it triggers. The spread always
      builds a new profile object, so the effect runs even when the value
      is unchanged. */
  function ChangeProfile(h: Home, change: ProfileChange): (r: Home)
    ensures r.profile == HandleProfileChange(h.profile, change)
    ensures r.users == h.users
    ensures r.catalog == SortByReviews(h.catalog)
    ensures r.recommendations.popularity == Popularity(h.catalog, ListLength, MinRating, MinReviews)
    ensures r.recommendations.contentBased == ContentBased(h.catalog, ListLength).recommendations
    ensures r.recommendations.collaborative == Collaborative(r.catalog, h.users, r.profile, ListLength, NeighbourCount)
  {
    Effect(h.(profile := HandleProfileChange(h.profile, change)))
  }

  /** The state before the first effect: the mock data, the initial profile
      and three empty lists. Mounting the page runs `Effect` on it. */
  const InitialHome: Home := Home(MockProducts, MockUsers, InitialProfile, Recommendations([], [], []))

  /** The lists on screen before the effect play no part in it. */
  lemma EffectIgnoresShownLists(h: Home, shown: Recommendations)
    ensures Effect(h.(recommendations := shown)) == Effect(h)
  {
  }

  /** Only the collaborative list reads the profile: with any other profile
      the catalog, the popularity list and the content list are the same. */
  lemma OnlyCollaborativeReadsProfile(h: Home, profile: Profile)
    ensures var a, b := Effect(h.(profile := profile)), Effect(h);
      && a.catalog == b.catalog
      && a.recommendations.popularity == b.recommendations.popularity
      && a.recommendations.contentBased == b.recommendations.contentBased
  {
  }

  /** Profiles that agree on age (absent reads as 0) and marital status give
      the same lists; occupation is never read. */
  lemma EffectReadsAgeAndStatus(h: Home, profile: Profile)
    requires profile.age.GetOr(0) == h.profile.age.GetOr(0)
    requires profile.maritalStatus == h.profile.maritalStatus
    ensures Effect(h.(profile := profile)).recommendations == Effect(h).recommendations
  {
    var step := ContentBased(h.catalog, ListLength);
    CollaborativeReadsAgeAndStatus(step.catalog, h.users, profile, h.profile, ListLength, NeighbourCount);
  }

  /** Changing the occupation leaves every list as it was. */
  lemma OccupationChangeKeepsLists(h: Home, occupation: Option<string>)
    ensures ChangeProfile(h, SetOccupation(occupation)).recommendations == Effect(h).recommendations
  {
    EffectReadsAgeAndStatus(h, HandleProfileChange(h.profile, SetOccupation(occupation)));
  }

  /** After the first effect the catalog is in its final order: later
      effects leave it alone. */
  lemma LaterEffectsKeepCatalog(h: Home, profile: Profile)
    ensures Effect(Effect(h).(profile := profile)).catalog == Effect(h).catalog
  {
    SortByReviewsIdempotent(h.catalog);
  }

  /** The effect settles by its second run: from then on, with the profile
      unchanged, running it again changes nothing. */
  lemma EffectSettles(h: Home)
    ensures var h2 := Effect(Effect(h));
      Effect(h2) == h2
  {
    var h1 := Effect(h);
    SortByReviewsIdempotent(h.catalog);
    SortByReviewsIdempotent(h1.catalog);
    var h2 := Effect(h1);
    assert h2.catalog == h1.catalog;
    assert Effect(h2).catalog == h2.catalog;
  }

  /** Two popular products of equal rating keep their catalog order in
      the popularity list. */
  lemma PopularityOfTiedPair(a: Product, b: Product)
    requires Popular(a, MinRating, MinReviews) && Popular(b, MinRating, MinReviews)
    requires a.rating == b.rating
    ensures Popularity([a, b], ListLength, MinRating, MinReviews) == [a, b]
  {
    var keep := PopularFilter(MinRating, MinReviews);
    assert keep(a) && keep(b);
    assert Filter([a, b], keep) == [a, b] by {
      assert [a, b][1..] == [b];
      assert Filter([b], keep) == [b];
    }
    SortOfSorted([a, b], ByRatingDesc);
  }

  /** The in-place sort puts the more reviewed of two products first. */
  lemma ReviewsOrderOfPair(a: Product, b: Product)
    requires a.reviews < b.reviews
    ensures SortByReviews([a, b]) == [b, a]
  {
    assert [a, b][1..] == [b];
    assert Sort([b], ByReviewsDesc) == [b];
    InsertAt(a, [b], ByReviewsDesc, 1);
  }

  /** Because the content step reorders the shared catalog, two popular
      products with equal ratings, the less reviewed one first in the
      catalog, swap places in the popularity list after the first run:
      first in catalog order, then the more reviewed first. In the mock
      data, products 2 and 6 (both rated 4.7, with 980 and 1100 reviews,
      product 2 first) are such a pair. */
  lemma TieOrderFlipsAfterFirstRun(a: Product, b: Product, users: seq<User>, profile: Profile, shown: Recommendations)
    requires Popular(a, MinRating, MinReviews) && Popular(b, MinRating, MinReviews)
    requires a.rating == b.rating && a.reviews < b.reviews
    ensures var h := Home([a, b], users, profile, shown);
      && Effect(h).recommendations.popularity == [a, b]
      && Effect(h).catalog == [b, a]
      && Effect(Effect(h)).recommendations.popularity == [b, a]
  {
    PopularityOfTiedPair(a, b);
    PopularityOfTiedPair(b, a);
    ReviewsOrderOfPair(a, b);
  }

  /** A catalog without repeated ids stays so, and every list the effect
      shows has no repeated product. */
  lemma EffectKeepsIdsUnique(h: Home)
    requires UniqueIds(h.catalog)
    ensures var r := Effect(h);
      && UniqueIds(r.catalog)
      && UniqueIds(r.recommendations.popularity)
      && UniqueIds(r.recommendations.contentBased)
      && UniqueIds(r.recommendations.collaborative)
  {
    SubmultisetKeepsDistinct(h.catalog, Effect(h).catalog, ProductId);
  }

  /** The page's own catalog has unique ids, so every list it shows after
      mounting has no repeated product. Later effects keep this by
      `EffectKeepsIdsUnique`. */
  lemma MountedListsHaveUniqueIds(h: Home)
    requires h == InitialHome
    ensures var r := Effect(h);
      && UniqueIds(r.catalog)
      && UniqueIds(r.recommendations.popularity)
      && UniqueIds(r.recommendations.contentBased)
      && UniqueIds(r.recommendations.collaborative)
  {
    MockProductIdsAreUnique();
    EffectKeepsIdsUnique(h);
  }
}

=== FILE: recommenders.dfy ===
/** The three ranking strategies of the home page: popularity, content
    (same category as the most reviewed product) and collaborative (what the
    users most similar to the viewer bought). Each ends in the same chain:
    keep some products of the catalog, stably sort them by rating from high
    to low, and take the first `n`. Line numbers refer to
    frontend/src/components/HomePage.tsx. */
module Recommenders {
  import opened Wrappers
  import opened StableSort
  import opened Catalog

  /** Sort key of the comparator `(a, b) => b.rating - a.rating`. */
  function ByRatingDesc(p: Product): int {
    -p.rating
  }

  /** Sort key of the comparator `(a, b) => b.reviews - a.reviews`. */
  function ByReviewsDesc(p: Product): int {
    -p.reviews
  }

  ghost predicate RatingNonIncreasing(s: seq<Product>) {
    forall i, j | 0 <= i < j < |s| :: s[i].rating >= s[j].rating
  }

  ghost predicate ReviewsNonIncreasing(s: seq<Product>) {
    forall i, j | 0 <= i < j < |s| :: s[i].reviews >= s[j].reviews
  }

  lemma SortedByRatingIsNonIncreasing(s: seq<Product>)
    requires SortedBy(s, ByRatingDesc)
    ensures RatingNonIncreasing(s)
  {
    forall i, j | 0 <= i < j < |s|
      ensures s[i].rating >= s[j].rating
    {
      assert ByRatingDesc(s[i]) <= ByRatingDesc(s[j]);
    }
  }

  /** `.sort((a, b) => b.rating - a.rating).slice(0, n)` over the products
      that survived a filter: the `n` best rated, ties in their current order. */
  function TopRated(candidates: seq<Product>, n: nat): (r: seq<Product>)
    ensures |r| == if n < |candidates| then n else |candidates|
    ensures multiset(r) <= multiset(candidates)
    ensures forall p | p in r :: p in candidates
    ensures RatingNonIncreasing(r)
    ensures forall p, q | p in r && q in candidates && q !in r :: p.rating >= q.rating
    ensures |r| < n ==> forall q | q in candidates :: q in r
    ensures forall v :: KeyClass(r, ByRatingDesc, v) <= KeyClass(candidates, ByRatingDesc, v)
    ensures UniqueIds(candidates) ==> UniqueIds(r)
  {
    var r := Top(candidates, ByRatingDesc, n);
    SubmultisetMembers(r, candidates);
    SortedByRatingIsNonIncreasing(r);
    SubmultisetKeepsDistinct(candidates, r, ProductId);
    r
  }

  // ----- Popularity (lines 83-88) -----

  /** The popularity filter: good enough rating and enough reviews. */
  predicate Popular(p: Product, minRating: int, minReviews: int) {
    p.rating >= minRating && p.reviews >= minReviews
  }

  function PopularFilter(minRating: int, minReviews: int): Product -> bool {
    (p: Product) => Popular(p, minRating, minReviews)
  }

  /** The popularity list: the `n` best rated products that pass the
      thresholds. It never reads the viewer's profile. */
  function Popularity(catalog: seq<Product>, n: nat, minRating: int, minReviews: int): (r: seq<Product>)
    ensures var passing := Filter(catalog, PopularFilter(minRating, minReviews));
      && |r| == (if n < |passing| then n else |passing|)
      && multiset(r) <= multiset(passing)
    ensures forall p | p in r :: p in catalog && Popular(p, minRating, minReviews)
    ensures (forall p | p in catalog :: !Popular(p, minRating, minReviews)) ==> r == []
    ensures RatingNonIncreasing(r)
    ensures forall p, q | p in r && q in catalog && Popular(q, minRating, minReviews) && q !in r :: p.rating >= q.rating
    ensures |r| < n ==> forall q | q in catalog && Popular(q, minRating, minReviews) :: q in r
    ensures forall v :: KeyClass(r, ByRatingDesc, v) <= KeyClass(Filter(catalog, PopularFilter(minRating, minReviews)), ByRatingDesc, v)
    ensures UniqueIds(catalog) ==> UniqueIds(r)
  {
    var keep := PopularFilter(minRating, minReviews);
    FilterKeepsPassing(catalog, keep);
    FilterKeepsDistinct(catalog, keep, ProductId);
    var r := TopRated(Filter(catalog, keep), n);
    assert |r| > 0 ==> r[0] in r;
    r
  }

  /** The popularity list is the head of every stable ranking of the
      products that pass the thresholds. */
  lemma PopularityIsPrefixOfRanking(catalog: seq<Product>, n: nat, minRating: int, minReviews: int, ranking: seq<Product>)
    requires SortedBy(ranking, ByRatingDesc)
    requires SameKeyClasses(Filter(catalog, PopularFilter(minRating, minReviews)), ranking, ByRatingDesc)
    ensures Popularity(catalog, n, minRating, minReviews) <= ranking
  {
    TopIsPrefixOfStableSort(Filter(catalog, PopularFilter(minRating, minReviews)), ByRatingDesc, n, ranking);
  }

  // ----- Content (lines 90-96) -----

  /** What the content step returns: the catalog as its in-place sort left
      it, and the recommendations. */
  datatype ContentStep = ContentStep(catalog: seq<Product>, recommendations: seq<Product>)

  /** `mockProducts.sort((a, b) => b.reviews - a.reviews)`: the shared catalog
      reordered by reviews from most to fewest, ties in their prior order. */
  function SortByReviews(catalog: seq<Product>): (c: seq<Product>)
    ensures multiset(c) == multiset(catalog)
    ensures |c| == |catalog|
    ensures ReviewsNonIncreasing(c)
    ensures SameKeyClasses(catalog, c, ByReviewsDesc)
  {
    SortSortsAndPermutes(catalog, ByReviewsDesc);
    SortIsStable(catalog, ByReviewsDesc);
    var c := Sort(catalog, ByReviewsDesc);
    assert ReviewsNonIncreasing(c) by {
      forall i, j | 0 <= i < j < |c|
        ensures c[i].reviews >= c[j].reviews
      {
        assert ByReviewsDesc(c[i]) <= ByReviewsDesc(c[j]);
      }
    }
    c
  }

  /** Reordering an already reordered catalog changes nothing. */
  lemma SortByReviewsIdempotent(catalog: seq<Product>)
    ensures SortByReviews(SortByReviews(catalog)) == SortByReviews(catalog)
  {
    SortSortsAndPermutes(catalog, ByReviewsDesc);
    SortOfSorted(Sort(catalog, ByReviewsDesc), ByReviewsDesc);
  }

  /** `p` has the most reviews of `catalog`, and no product before it has as many. */
  ghost predicate IsFirstMostReviewed(catalog: seq<Product>, p: Product) {
    exists i | 0 <= i < |catalog| :: catalog[i] == p
      && (forall j | 0 <= j < |catalog| :: catalog[j].reviews <= p.reviews)
      && (forall j | 0 <= j < i :: catalog[j].reviews < p.reviews)
  }

  /** The head of the reordered catalog is the first most reviewed product. */
  lemma ReferenceIsFirstMostReviewed(catalog: seq<Product>)
    requires |catalog| > 0
    ensures |SortByReviews(catalog)| > 0
    ensures IsFirstMostReviewed(catalog, SortByReviews(catalog)[0])
  {
    SortHeadIsFirstLeast(catalog, ByReviewsDesc);
    var i :| 0 <= i < |catalog| && catalog[i] == Sort(catalog, ByReviewsDesc)[0]
             && (forall j | 0 <= j < |catalog| :: ByReviewsDesc(catalog[i]) <= ByReviewsDesc(catalog[j]))
             && (forall j | 0 <= j < i :: ByReviewsDesc(catalog[i]) < ByReviewsDesc(catalog[j]));
    var p := catalog[i];
    assert p == SortByReviews(catalog)[0];
    forall j | 0 <= j < |catalog|
      ensures catalog[j].reviews <= p.reviews
    {
      assert ByReviewsDesc(p) <= ByReviewsDesc(catalog[j]);
    }
    forall j | 0 <= j < i
      ensures catalog[j].reviews < p.reviews
    {
      assert ByReviewsDesc(p) < ByReviewsDesc(catalog[j]);
    }
  }

  /** Products of the reference's category other than the reference itself
      (compared by id). */
  predicate Related(p: Product, reference: Product) {
    p.productType == reference.productType && p.id != reference.id
  }

  function RelatedFilter(reference: Product): Product -> bool {
    (p: Product) => Related(p, reference)
  }

  /** The content step: reorder the catalog by reviews, take its head as the
      reference, and rank the other products of the reference's category.
      On an empty catalog the head is `undefined`, but the filter never
      calls its test on an empty array, so nothing reads the reference and
      the list is empty. */
  function ContentBased(catalog: seq<Product>, n: nat): (r: ContentStep)
    ensures r.catalog == SortByReviews(catalog)
    ensures |catalog| == 0 ==> r.recommendations == []
    ensures |catalog| > 0 ==> IsFirstMostReviewed(catalog, r.catalog[0])
    ensures |catalog| > 0 ==>
      var reference, recs := r.catalog[0], r.recommendations;
      var related := Filter(r.catalog, RelatedFilter(reference));
      && |recs| == (if n < |related| then n else |related|)
      && multiset(recs) <= multiset(related)
      && (forall p | p in recs :: p in catalog && Related(p, reference))
      && reference !in recs
      && RatingNonIncreasing(recs)
      && (forall p, q | p in recs && q in catalog && Related(q, reference) && q !in recs :: p.rating >= q.rating)
      && (|recs| < n ==> forall q | q in catalog && Related(q, reference) :: q in recs)
      && (forall v :: KeyClass(recs, ByRatingDesc, v) <= KeyClass(related, ByRatingDesc, v))
      && (UniqueIds(catalog) ==> UniqueIds(recs))
  {
    var sorted := SortByReviews(catalog);
    if |catalog| == 0 then ContentStep(sorted, [])
    else
      var reference := sorted[0];
      var keep := RelatedFilter(reference);
      ReferenceIsFirstMostReviewed(catalog);
      FilterKeepsPassing(sorted, keep);
      FilterKeepsDistinct(sorted, keep, ProductId);
      SubmultisetKeepsDistinct(catalog, sorted, ProductId);
      assert forall q | q in catalog :: q in sorted by {
        forall q | q in catalog
          ensures q in sorted
        {
          assert q in multiset(sorted);
        }
      }
      assert forall q | q in sorted :: q in catalog by {
        forall q | q in sorted
          ensures q in catalog
        {
          assert q in multiset(catalog);
        }
      }
      ContentStep(sorted, TopRated(Filter(sorted, keep), n))
  }

  /** The content list is the head of every stable ranking, by rating, of
      the reference's relatives in the reordered catalog. */
  lemma ContentIsPrefixOfRanking(catalog: seq<Product>, n: nat, ranking: seq<Product>)
    requires |catalog| > 0
    requires SortedBy(ranking, ByRatingDesc)
    requires SameKeyClasses(Filter(SortByReviews(catalog), RelatedFilter(SortByReviews(catalog)[0])), ranking, ByRatingDesc)
    ensures ContentBased(catalog, n).recommendations <= ranking
  {
    var sorted := SortByReviews(catalog);
    TopIsPrefixOfStableSort(Filter(sorted, RelatedFilter(sorted[0])), ByRatingDesc, n, ranking);
  }

  /** Running the content step on the catalog it left behind gives the same
      catalog and the same recommendations. */
  lemma ContentBasedIdempotent(catalog: seq<Product>, n: nat)
    ensures ContentBased(ContentBased(catalog, n).catalog, n) == ContentBased(catalog, n)
  {
    SortByReviewsIdempotent(catalog);
  }

  // ----- Collaborative (lines 98-115) -----

  /** The viewer's own user id, hard-coded by the page. */
  const ViewerId: int := 1

  function Abs(x: int): nat {
    if x < 0 then -x else x
  }

  /** The comparator's score of user `u` against the profile: the age gap
      (an absent age counts as 0) plus 1 unless both marital statuses are
      present and equal. */
  function Dissimilarity(u: User, profile: Profile): nat {
    Abs(u.age - profile.age.GetOr(0)) + (if profile.maritalStatus == Some(u.maritalStatus) then 0 else 1)
  }

  /** A user scores 0 exactly when they match the profile's age (0 when
      absent) and its present marital status; any status mismatch costs at
      least 1, and otherwise the score is the age gap. */
  lemma DissimilarityMeasuresMismatch(u: User, profile: Profile)
    ensures Dissimilarity(u, profile) == 0 <==> profile.age.GetOr(0) == u.age && profile.maritalStatus == Some(u.maritalStatus)
    ensures profile.maritalStatus != Some(u.maritalStatus) ==> Dissimilarity(u, profile) >= 1
    ensures profile.maritalStatus == Some(u.maritalStatus) ==> Dissimilarity(u, profile) == Abs(u.age - profile.age.GetOr(0))
  {
  }

  /** An absent age scores like age 0; an absent marital status adds 1 as a
      different one does. */
  lemma AbsentProfileFields(u: User, profile: Profile, other: string)
    requires other != u.maritalStatus
    ensures Dissimilarity(u, profile.(age := None)) == Dissimilarity(u, profile.(age := Some(0)))
    ensures Dissimilarity(u, profile.(maritalStatus := None)) == Dissimilarity(u, profile.(maritalStatus := Some(other)))
    ensures Dissimilarity(u, profile.(maritalStatus := None)) == Dissimilarity(u, profile.(maritalStatus := Some(u.maritalStatus))) + 1
  {
  }

  /** The sort key the comparator of lines 101-107 orders users by. */
  function DissimilarityKey(profile: Profile): User -> nat {
    (u: User) => Dissimilarity(u, profile)
  }

  predicate IsOtherUser(u: User) {
    u.id != ViewerId
  }

  /** Lines 99-108: every user but the viewer, stably ordered from most to
      least similar (ascending `DissimilarityKey`), cut to the first `k`. */
  function Neighbours(users: seq<User>, profile: Profile, k: nat): (r: seq<User>)
    ensures var others := Filter(users, IsOtherUser);
      && |r| == (if k < |others| then k else |others|)
      && (forall u | u in r :: u in users && u.id != ViewerId)
      && SortedBy(r, DissimilarityKey(profile))
      && (forall u, w | u in r && w in users && w.id != ViewerId && w !in r ::
            DissimilarityKey(profile)(u) <= DissimilarityKey(profile)(w))
      && (forall v :: KeyClass(r, DissimilarityKey(profile), v) <= KeyClass(others, DissimilarityKey(profile), v))
  {
    var others := Filter(users, IsOtherUser);
    var r := Top(others, DissimilarityKey(profile), k);
    FilterKeepsPassing(users, IsOtherUser);
    SubmultisetMembers(r, others);
    r
  }

  /** The neighbours are the head of every stable ranking of the other
      users by dissimilarity. */
  lemma NeighboursIsPrefixOfRanking(users: seq<User>, profile: Profile, k: nat, ranking: seq<User>)
    requires SortedBy(ranking, DissimilarityKey(profile))
    requires SameKeyClasses(Filter(users, IsOtherUser), ranking, DissimilarityKey(profile))
    ensures Neighbours(users, profile, k) <= ranking
  {
    TopIsPrefixOfStableSort(Filter(users, IsOtherUser), DissimilarityKey(profile), k, ranking);
  }

  /** Two profiles that score every user alike pick the same neighbours, so
      the collaborative list reads the profile only through the scores. */
  lemma SameScoresSameCollaborative(catalog: seq<Product>, users: seq<User>, p1: Profile, p2: Profile, n: nat, k: nat)
    requires forall u: User :: Dissimilarity(u, p1) == Dissimilarity(u, p2)
    ensures Neighbours(users, p1, k) == Neighbours(users, p2, k)
    ensures Collaborative(catalog, users, p1, n, k) == Collaborative(catalog, users, p2, n, k)
  {
    TopSameKeys(Filter(users, IsOtherUser), DissimilarityKey(p1), DissimilarityKey(p2), k);
  }

  /** The collaborative list reads only the profile's age, with an absent
      age counting as 0, and its marital status; never its occupation. */
  lemma CollaborativeReadsAgeAndStatus(catalog: seq<Product>, users: seq<User>, p1: Profile, p2: Profile, n: nat, k: nat)
    requires p1.age.GetOr(0) == p2.age.GetOr(0)
    requires p1.maritalStatus == p2.maritalStatus
    ensures Collaborative(catalog, users, p1, n, k) == Collaborative(catalog, users, p2, n, k)
  {
    SameScoresSameCollaborative(catalog, users, p1, p2, n, k);
  }

  /** The ids bought by any of `neighbours`: the `Set` of line 110. */
  function PurchasedIds(neighbours: seq<User>): set<int> {
    set u, id | u in neighbours && id in u.purchasedProducts :: id
  }

  function PurchasedFilter(ids: set<int>): Product -> bool {
    (p: Product) => p.id in ids
  }

  /** A product some neighbour bought. */
  ghost predicate BoughtByNeighbour(p: Product, neighbours: seq<User>) {
    exists u | u in neighbours :: p.id in u.purchasedProducts
  }

  /** The collaborative list: the `n` best rated catalog products that one of
      the `k` nearest other users bought. */
  function Collaborative(catalog: seq<Product>, users: seq<User>, profile: Profile, n: nat, k: nat): (r: seq<Product>)
    ensures var neighbours := Neighbours(users, profile, k);
      var bought := Filter(catalog, PurchasedFilter(PurchasedIds(neighbours)));
      && |r| == (if n < |bought| then n else |bought|)
      && multiset(r) <= multiset(bought)
      && (forall p | p in r :: p in catalog && BoughtByNeighbour(p, neighbours))
      && RatingNonIncreasing(r)
      && (forall p, q | p in r && q in catalog && BoughtByNeighbour(q, neighbours) && q !in r :: p.rating >= q.rating)
      && (|r| < n ==> forall q | q in catalog && BoughtByNeighbour(q, neighbours) :: q in r)
      && (forall v :: KeyClass(r, ByRatingDesc, v) <= KeyClass(bought, ByRatingDesc, v))
      && (UniqueIds(catalog) ==> UniqueIds(r))
  {
    var neighbours := Neighbours(users, profile, k);
    var keep := PurchasedFilter(PurchasedIds(neighbours));
    FilterKeepsPassing(catalog, keep);
    FilterKeepsDistinct(catalog, keep, ProductId);
    TopRated(Filter(catalog, keep), n)
  }

  /** The collaborative list is the head of every stable ranking, by rating,
      of the catalog products the neighbours bought. */
  lemma CollaborativeIsPrefixOfRanking(catalog: seq<Product>, users: seq<User>, profile: Profile, n: nat, k: nat, ranking: seq<Product>)
    requires SortedBy(ranking, ByRatingDesc)
    requires SameKeyClasses(Filter(catalog, PurchasedFilter(PurchasedIds(Neighbours(users, profile, k)))), ranking, ByRatingDesc)
    ensures Collaborative(catalog, users, profile, n, k) <= ranking
  {
    TopIsPrefixOfStableSort(Filter(catalog, PurchasedFilter(PurchasedIds(Neighbours(users, profile, k)))), ByRatingDesc, n, ranking);
  }
}

=== FILE: stablesort.dfy ===
/** Sequence operations behind the recommender's `filter`, `sort` and
    `slice(0, n)` chains, with a stable insertion sort.

    A JavaScript comparator `(a, b) => key(a) - key(b)` asks for the elements
    in ascending key order; a descending comparator `(a, b) => key(b) - key(a)`
    is the ascending order of the negated key. `Array.prototype.sort` is
    stable (section 23.1.3.30 of ECMA-262, 2023 edition, and every edition
    since ES2019), so elements with equal keys keep their current order.
    Stability is stated through key classes: for every key value `v`, the
    elements whose key is `v` appear in the same order before and after. */
module StableSort {

  /** Keys never decrease from left to right. */
  ghost predicate SortedBy<T>(s: seq<T>, key: T -> int) {
    forall i, j | 0 <= i < j < |s| :: key(s[i]) <= key(s[j])
  }

  /** The elements of `s` whose key is `v`, in their order in `s`. */
  function KeyClass<T>(s: seq<T>, key: T -> int, v: int): (r: seq<T>)
    ensures |r| <= |s|
    ensures forall x | x in r :: x in s && key(x) == v
    ensures forall x | x in s && key(x) == v :: x in r
    decreases |s|
  {
    if |s| == 0 then []
    else if key(s[0]) == v then [s[0]] + KeyClass(s[1..], key, v)
    else KeyClass(s[1..], key, v)
  }

  /** `r` lists every key class of `s` in the same order as `s` does. */
  ghost predicate SameKeyClasses<T>(s: seq<T>, r: seq<T>, key: T -> int) {
    forall v :: KeyClass(r, key, v) == KeyClass(s, key, v)
  }

  /** `Array.prototype.filter`: the elements that pass `keep`, in order. */
  function Filter<T>(s: seq<T>, keep: T -> bool): seq<T>
    decreases |s|
  {
    if |s| == 0 then []
    else if keep(s[0]) then [s[0]] + Filter(s[1..], keep)
    else Filter(s[1..], keep)
  }

  /** The filter keeps exactly the elements that pass. */
  lemma {:induction false} FilterKeepsPassing<T>(s: seq<T>, keep: T -> bool)
    ensures |Filter(s, keep)| <= |s|
    ensures forall x | x in Filter(s, keep) :: x in s && keep(x)
    ensures forall x | x in s && keep(x) :: x in Filter(s, keep)
    decreases |s|
  {
    if |s| > 0 {
      FilterKeepsPassing(s[1..], keep);
      assert s == [s[0]] + s[1..];
    }
  }

  /** The test "the key is `v`". */
  function HasKey<T>(key: T -> int, v: int): T -> bool {
    (x: T) => key(x) == v
  }

  /** A key class is the filter whose test is "the key is `v`". */
  lemma {:induction false} KeyClassIsFilter<T>(s: seq<T>, key: T -> int, v: int)
    ensures KeyClass(s, key, v) == Filter(s, HasKey(key, v))
    decreases |s|
  {
    if |s| > 0 {
      KeyClassIsFilter(s[1..], key, v);
    }
  }

  /** `slice(0, n)` for a non-negative `n`. */
  function Slice<T>(s: seq<T>, n: nat): (r: seq<T>)
    ensures |r| == if n < |s| then n else |s|
    ensures r <= s
  {
    if n < |s| then s[..n] else s
  }

  /** Places `x` in front of the first element whose key is not below its
      own, so that it precedes every element of `s` with an equal key. */
  function Insert<T>(x: T, s: seq<T>, key: T -> int): seq<T>
    decreases |s|
  {
    if |s| == 0 || key(x) <= key(s[0]) then [x] + s
    else [s[0]] + Insert(x, s[1..], key)
  }

  /** Insertion adds exactly `x`. */
  lemma {:induction false} InsertAddsOne<T>(x: T, s: seq<T>, key: T -> int)
    ensures multiset(Insert(x, s, key)) == multiset(s) + multiset{x}
    decreases |s|
  {
    if |s| > 0 && key(s[0]) < key(x) {
      assert s == [s[0]] + s[1..];
      InsertAddsOne(x, s[1..], key);
    }
  }

  /** Inserting into a sorted sequence keeps it sorted. */
  lemma {:induction false} InsertSorted<T>(x: T, s: seq<T>, key: T -> int)
    requires SortedBy(s, key)
    ensures SortedBy(Insert(x, s, key), key)
    decreases |s|
  {
    if |s| > 0 && key(s[0]) < key(x) {
      var t := Insert(x, s[1..], key);
      InsertSorted(x, s[1..], key);
      SortedTailBound(s, key);
      InsertKeepsLowerBound(x, s[1..], key, key(s[0]));
      var r := [s[0]] + t;
      forall i, j | 0 <= i < j < |r|
        ensures key(r[i]) <= key(r[j])
      {
        assert r[j] == t[j - 1];
        if i > 0 {
          assert r[i] == t[i - 1];
        } else {
          assert t[j - 1] in t;
        }
      }
    }
  }

  /** The head of a sorted sequence bounds the keys of its tail. */
  lemma SortedTailBound<T>(s: seq<T>, key: T -> int)
    requires SortedBy(s, key)
    requires |s| > 0
    ensures forall y | y in s[1..] :: key(s[0]) <= key(y)
  {
    forall y | y in s[1..]
      ensures key(s[0]) <= key(y)
    {
      var i :| 0 <= i < |s[1..]| && s[1..][i] == y;
      assert s[i + 1] == y;
    }
  }

  /** A lower bound on the keys of `s` and of `x` bounds the keys after the insertion. */
  lemma InsertKeepsLowerBound<T>(x: T, s: seq<T>, key: T -> int, b: int)
    requires b <= key(x)
    requires forall y | y in s :: b <= key(y)
    ensures forall y | y in Insert(x, s, key) :: b <= key(y)
  {
    InsertAddsOne(x, s, key);
    forall y | y in Insert(x, s, key)
      ensures b <= key(y)
    {
      assert y in multiset(Insert(x, s, key));
      assert y == x || y in multiset(s);
    }
  }


  /** Insertion adds `x` in front of its own key class and leaves every
      other key class as it was. */
  lemma {:induction false} InsertKeyClass<T>(x: T, s: seq<T>, key: T -> int, v: int)
    ensures KeyClass(Insert(x, s, key), key, v) == (if key(x) == v then [x] else []) + KeyClass(s, key, v)
    decreases |s|
  {
    if |s| == 0 || key(x) <= key(s[0]) {
      assert ([x] + s)[1..] == s;
    } else {
      var t := Insert(x, s[1..], key);
      InsertKeyClass(x, s[1..], key, v);
      assert ([s[0]] + t)[1..] == t;
    }
  }

  /** Insertion lands `x` just before the first element whose key is at
      least its own. */
  lemma {:induction false} InsertAt<T>(x: T, s: seq<T>, key: T -> int, i: nat)
    requires i <= |s|
    requires forall j | 0 <= j < i :: key(s[j]) < key(x)
    requires i < |s| ==> key(x) <= key(s[i])
    ensures Insert(x, s, key) == s[..i] + [x] + s[i..]
  {
    if i > 0 {
      InsertAt(x, s[1..], key, i - 1);
      assert s[..i] == [s[0]] + s[1..][..i - 1];
      assert s[i..] == s[1..][i - 1..];
    }
  }

  /** Stable insertion sort into ascending key order. */
  function Sort<T>(s: seq<T>, key: T -> int): seq<T>
    decreases |s|
  {
    if |s| == 0 then [] else Insert(s[0], Sort(s[1..], key), key)
  }

  /** The sort orders its input and neither adds nor drops an element. */
  lemma {:induction false} SortSortsAndPermutes<T>(s: seq<T>, key: T -> int)
    ensures SortedBy(Sort(s, key), key)
    ensures multiset(Sort(s, key)) == multiset(s)
    ensures |Sort(s, key)| == |s|
    decreases |s|
  {
    if |s| > 0 {
      assert s == [s[0]] + s[1..];
      var t := Sort(s[1..], key);
      SortSortsAndPermutes(s[1..], key);
      InsertSorted(s[0], t, key);
      InsertAddsOne(s[0], t, key);
    }
    assert |Sort(s, key)| == |multiset(Sort(s, key))|;
  }

  /** The sort is stable: every key class keeps its order. */
  lemma {:induction false} SortIsStable<T>(s: seq<T>, key: T -> int)
    ensures SameKeyClasses(s, Sort(s, key), key)
    decreases |s|
  {
    if |s| > 0 {
      SortIsStable(s[1..], key);
      forall v
        ensures KeyClass(Sort(s, key), key, v) == KeyClass(s, key, v)
      {
        InsertKeyClass(s[0], Sort(s[1..], key), key, v);
      }
    }
  }

  /** `.sort(cmp).slice(0, n)`: the first `n` elements of the stable sort. */
  function Top<T>(s: seq<T>, key: T -> int, n: nat): (r: seq<T>)
    ensures |r| == if n < |s| then n else |s|
    ensures SortedBy(r, key)
    ensures multiset(r) <= multiset(s)
    ensures forall x, y | x in r && y in s && y !in r :: key(x) <= key(y)
    ensures forall v :: KeyClass(r, key, v) <= KeyClass(s, key, v)
    ensures |r| < n ==> forall y | y in s :: y in r
  {
    var full := Sort(s, key);
    var r := Slice(full, n);
    SortSortsAndPermutes(s, key);
    PrefixOfSortIsLeast(s, key, r);
    PrefixOfSortKeepsKeyClasses(s, key, r);
    ShortPrefixIsWholeSort(s, key, n);
    r
  }

  /** The sort has the length of its input, so a slice shorter than asked
      for holds all of it. */
  lemma ShortPrefixIsWholeSort<T>(s: seq<T>, key: T -> int, n: nat)
    ensures |Sort(s, key)| == |s|
    ensures |Slice(Sort(s, key), n)| < n ==> forall y | y in s :: y in Slice(Sort(s, key), n)
  {
    var full := Sort(s, key);
    SortSortsAndPermutes(s, key);
    forall y | y in s
      ensures y in full
    {
      assert y in multiset(full);
    }
  }

  /** A prefix of the sort holds a least-keyed part of `s`. */
  lemma PrefixOfSortIsLeast<T>(s: seq<T>, key: T -> int, r: seq<T>)
    requires r <= Sort(s, key)
    ensures multiset(r) <= multiset(s)
    ensures forall x, y | x in r && y in s && y !in r :: key(x) <= key(y)
  {
    var full := Sort(s, key);
    SortSortsAndPermutes(s, key);
    assert full == r + full[|r|..];
    assert multiset(full) == multiset(r) + multiset(full[|r|..]);
    forall x, y | x in r && y in s && y !in r
      ensures key(x) <= key(y)
    {
      assert y in multiset(full);
      var j :| 0 <= j < |full| && full[j] == y;
      var i :| 0 <= i < |r| && r[i] == x;
      assert full[i] == x;
    }
  }

  /** A prefix of the sort lists a prefix of every key class of `s`. */
  lemma PrefixOfSortKeepsKeyClasses<T>(s: seq<T>, key: T -> int, r: seq<T>)
    requires r <= Sort(s, key)
    ensures forall v :: KeyClass(r, key, v) <= KeyClass(s, key, v)
  {
    var full := Sort(s, key);
    SortIsStable(s, key);
    assert full == r + full[|r|..];
    forall v
      ensures KeyClass(r, key, v) <= KeyClass(s, key, v)
    {
      KeyClassAppend(r, full[|r|..], key, v);
    }
  }

  /** Filtering commutes with concatenation. */
  lemma {:induction false} FilterAppend<T>(a: seq<T>, b: seq<T>, keep: T -> bool)
    ensures Filter(a + b, keep) == Filter(a, keep) + Filter(b, keep)
    decreases |a|
  {
    if |a| == 0 {
      assert a + b == b;
    } else {
      assert (a + b)[0] == a[0];
      assert (a + b)[1..] == a[1..] + b;
      FilterAppend(a[1..], b, keep);
    }
  }

  /** Taking key classes commutes with concatenation. */
  lemma KeyClassAppend<T>(a: seq<T>, b: seq<T>, key: T -> int, v: int)
    ensures KeyClass(a + b, key, v) == KeyClass(a, key, v) + KeyClass(b, key, v)
  {
    KeyClassIsFilter(a + b, key, v);
    KeyClassIsFilter(a, key, v);
    KeyClassIsFilter(b, key, v);
    FilterAppend(a, b, HasKey(key, v));
  }

  /** The first element of a non-empty key class is the leftmost element of
      `s` with that key. */
  lemma {:induction false} KeyClassHead<T>(s: seq<T>, key: T -> int, v: int) returns (i: nat)
    requires KeyClass(s, key, v) != []
    ensures i < |s| && s[i] == KeyClass(s, key, v)[0] && key(s[i]) == v
    ensures forall j | 0 <= j < i :: key(s[j]) != v
    decreases |s|
  {
    if key(s[0]) == v {
      i := 0;
    } else {
      var k := KeyClassHead(s[1..], key, v);
      i := k + 1;
      assert s[i] == s[1..][k];
      forall j | 0 <= j < i
        ensures key(s[j]) != v
      {
        if j > 0 {
          assert s[j] == s[1..][j - 1];
        }
      }
    }
  }


  /** A sequence sorted by key has no element with a smaller key than its head. */
  lemma SortedHeadIsLeast<T>(s: seq<T>, key: T -> int, y: T)
    requires SortedBy(s, key)
    requires y in s
    ensures key(s[0]) <= key(y)
  {
    var i :| 0 <= i < |s| && s[i] == y;
  }

  /** Two sorted sequences with the same key classes start with the same element. */
  lemma SortedSameHead<T>(a: seq<T>, b: seq<T>, key: T -> int)
    requires SortedBy(a, key)
    requires SortedBy(b, key)
    requires SameKeyClasses(a, b, key)
    requires |a| > 0
    ensures |b| > 0 && a[0] == b[0]
    ensures KeyClass(a, key, key(a[0])) == [a[0]] + KeyClass(a[1..], key, key(a[0]))
    ensures KeyClass(b, key, key(a[0])) == [b[0]] + KeyClass(b[1..], key, key(a[0]))
  {
    var m := key(a[0]);
    assert a[0] in KeyClass(a, key, m);
    assert a[0] in KeyClass(b, key, m);
    SortedHeadIsLeast(b, key, a[0]);
    assert b[0] in KeyClass(b, key, key(b[0]));
    assert b[0] in KeyClass(a, key, key(b[0]));
    SortedHeadIsLeast(a, key, b[0]);
  }

  /** Dropping equal heads keeps the key classes equal. */
  lemma SameKeyClassesTail<T>(a: seq<T>, b: seq<T>, key: T -> int)
    requires |a| > 0 && |b| > 0 && a[0] == b[0]
    requires SameKeyClasses(a, b, key)
    ensures SameKeyClasses(a[1..], b[1..], key)
  {
    forall v
      ensures KeyClass(b[1..], key, v) == KeyClass(a[1..], key, v)
    {
      var h := if key(a[0]) == v then [a[0]] else [];
      assert KeyClass(a, key, v) == h + KeyClass(a[1..], key, v);
      assert KeyClass(b, key, v) == h + KeyClass(b[1..], key, v);
      assert (h + KeyClass(a[1..], key, v))[|h|..] == KeyClass(a[1..], key, v);
      assert (h + KeyClass(b[1..], key, v))[|h|..] == KeyClass(b[1..], key, v);
    }
  }

  /** The head of a non-empty sequence is in its own key class. */
  lemma KeyClassOfHead<T>(s: seq<T>, key: T -> int)
    ensures |s| > 0 ==> KeyClass(s, key, key(s[0])) != []
  {
  }

  /** A stable sort is unique: two sorted sequences with the same key classes
      are equal. */
  lemma {:induction false} SortedUnique<T>(a: seq<T>, b: seq<T>, key: T -> int)
    requires SortedBy(a, key)
    requires SortedBy(b, key)
    requires SameKeyClasses(a, b, key)
    ensures a == b
    decreases |a|
  {
    if |a| == 0 {
      KeyClassOfHead(b, key);
    } else {
      SortedSameHead(a, b, key);
      SameKeyClassesTail(a, b, key);
      SortedUnique(a[1..], b[1..], key);
      assert a == [a[0]] + a[1..];
      assert b == [b[0]] + b[1..];
    }
  }

  /** Sorting is determined by sortedness and stability alone: any sorted
      sequence with the key classes of `s` is `Sort(s, key)`. */
  lemma SortIsTheStableSort<T>(s: seq<T>, r: seq<T>, key: T -> int)
    requires SortedBy(r, key)
    requires SameKeyClasses(s, r, key)
    ensures r == Sort(s, key)
  {
    SortIsStable(s, key);
    SortSortsAndPermutes(s, key);
    SortedUnique(r, Sort(s, key), key);
  }

  /** Sorting an already sorted sequence leaves it as it is. */
  lemma SortOfSorted<T>(s: seq<T>, key: T -> int)
    requires SortedBy(s, key)
    ensures Sort(s, key) == s
  {
    SortIsTheStableSort(s, s, key);
  }

  /** The head of the sort is the leftmost element with the least key. */
  lemma SortHeadIsFirstLeast<T>(s: seq<T>, key: T -> int)
    requires |s| > 0
    ensures |Sort(s, key)| == |s|
    ensures exists i :: 0 <= i < |s| && s[i] == Sort(s, key)[0]
                        && (forall j | 0 <= j < |s| :: key(s[i]) <= key(s[j]))
                        && (forall j | 0 <= j < i :: key(s[i]) < key(s[j]))
  {
    SortSortsAndPermutes(s, key);
    SortIsStable(s, key);
    StableHeadIsFirstLeast(s, Sort(s, key), key);
  }

  /** The head of any stable sort of `s` is the first element of `s` with the least key. */
  lemma StableHeadIsFirstLeast<T>(s: seq<T>, r: seq<T>, key: T -> int)
    requires |s| > 0 && |r| == |s|
    requires SortedBy(r, key)
    requires multiset(r) == multiset(s)
    requires SameKeyClasses(s, r, key)
    ensures exists i :: 0 <= i < |s| && s[i] == r[0]
                        && (forall j | 0 <= j < |s| :: key(s[i]) <= key(s[j]))
                        && (forall j | 0 <= j < i :: key(s[i]) < key(s[j]))
  {
    var v := key(r[0]);
    assert KeyClass(r, key, v) == [r[0]] + KeyClass(r[1..], key, v);
    assert KeyClass(s, key, v) == KeyClass(r, key, v);
    var i := KeyClassHead(s, key, v);
    assert s[i] == r[0];
    SubmultisetMembers(s, r);
    forall j | 0 <= j < |s|
      ensures key(s[i]) <= key(s[j])
    {
      SortedHeadIsLeast(r, key, s[j]);
    }
    forall j | 0 <= j < i
      ensures key(s[i]) < key(s[j])
    {
      assert key(s[i]) <= key(s[j]);
    }
  }



  /** The first `n` of a stable sort are the first `n` of any sorted sequence
      with the same key classes. */
  lemma TopIsPrefixOfStableSort<T>(s: seq<T>, key: T -> int, n: nat, full: seq<T>)
    requires SortedBy(full, key)
    requires SameKeyClasses(s, full, key)
    ensures Top(s, key, n) <= full
  {
    SortIsTheStableSort(s, full, key);
  }

  /** The sort reads its key only through the values it gives: two keys
      that agree everywhere sort alike. */
  lemma {:induction false} InsertSameKeys<T>(x: T, s: seq<T>, k1: T -> int, k2: T -> int)
    requires forall y :: k1(y) == k2(y)
    ensures Insert(x, s, k1) == Insert(x, s, k2)
  {
    if |s| > 0 && k1(x) > k1(s[0]) {
      InsertSameKeys(x, s[1..], k1, k2);
    }
  }

  lemma {:induction false} SortSameKeys<T>(s: seq<T>, k1: T -> int, k2: T -> int)
    requires forall y :: k1(y) == k2(y)
    ensures Sort(s, k1) == Sort(s, k2)
  {
    if |s| > 0 {
      SortSameKeys(s[1..], k1, k2);
      InsertSameKeys(s[0], Sort(s[1..], k1), k1, k2);
    }
  }

  lemma TopSameKeys<T>(s: seq<T>, k1: T -> int, k2: T -> int, n: nat)
    requires forall y :: k1(y) == k2(y)
    ensures Top(s, k1, n) == Top(s, k2, n)
  {
    SortSameKeys(s, k1, k2);
  }

  /** Every element of a part of `s` is an element of `s`. */
  lemma SubmultisetMembers<T>(r: seq<T>, s: seq<T>)
    requires multiset(r) <= multiset(s)
    ensures forall x | x in r :: x in s
  {
    forall x | x in r
      ensures x in s
    {
      assert x in multiset(r);
    }
  }

  /** `s` lists no two elements with the same `f` value. */
  ghost predicate DistinctBy<T>(s: seq<T>, f: T -> int) {
    forall i, j | 0 <= i < j < |s| :: f(s[i]) != f(s[j])
  }

  /** Filtering keeps distinct values distinct. */
  lemma {:induction false} FilterKeepsDistinct<T>(s: seq<T>, keep: T -> bool, f: T -> int)
    ensures DistinctBy(s, f) ==> DistinctBy(Filter(s, keep), f)
    decreases |s|
  {
    if |s| > 0 && DistinctBy(s, f) {
      assert DistinctBy(s[1..], f) by {
        forall i, j | 0 <= i < j < |s[1..]|
          ensures f(s[1..][i]) != f(s[1..][j])
        {
          assert s[1..][i] == s[i + 1] && s[1..][j] == s[j + 1];
        }
      }
      FilterKeepsDistinct(s[1..], keep, f);
      FilterKeepsPassing(s[1..], keep);
      var t := Filter(s[1..], keep);
      forall y | y in t
        ensures f(y) != f(s[0])
      {
        var i :| 0 <= i < |s[1..]| && s[1..][i] == y;
        assert s[i + 1] == y;
      }
    }
  }

  /** In a sequence with distinct `f` values every element occurs once. */
  lemma {:induction false} DistinctOccursOnce<T>(s: seq<T>, f: T -> int, x: T)
    requires DistinctBy(s, f)
    ensures multiset(s)[x] <= 1
    decreases |s|
  {
    if |s| > 0 {
      assert s == [s[0]] + s[1..];
      assert DistinctBy(s[1..], f) by {
        forall i, j | 0 <= i < j < |s[1..]|
          ensures f(s[1..][i]) != f(s[1..][j])
        {
          assert s[1..][i] == s[i + 1] && s[1..][j] == s[j + 1];
        }
      }
      DistinctOccursOnce(s[1..], f, x);
      if x == s[0] {
        forall i | 0 <= i < |s[1..]|
          ensures s[1..][i] != x
        {
          assert s[1..][i] == s[i + 1];
        }
      }
    }
  }

  /** Any part of a permutation of a sequence with distinct `f` values has
      distinct `f` values too. */
  lemma SubmultisetKeepsDistinct<T>(s: seq<T>, r: seq<T>, f: T -> int)
    requires multiset(r) <= multiset(s)
    ensures DistinctBy(s, f) ==> DistinctBy(r, f)
  {
    if DistinctBy(s, f) {
      forall i, j | 0 <= i < j < |r|
        ensures f(r[i]) != f(r[j])
      {
        assert r[i] in multiset(s) && r[j] in multiset(s);
        if r[i] == r[j] {
          assert r == r[..j] + r[j..];
          assert r[i] in r[..j];
          assert r[j] in r[j..];
          assert multiset(r)[r[i]] == multiset(r[..j])[r[i]] + multiset(r[j..])[r[i]];
          DistinctOccursOnce(s, f, r[i]);
        } else {
          var a :| 0 <= a < |s| && s[a] == r[i];
          var b :| 0 <= b < |s| && s[b] == r[j];
          assert a != b;
        }
      }
    }
  }
}

=== FILE: wrappers.dfy ===
/** Optional values, as the recommender needs them: the viewer profile's
    fields may be absent. */
module Wrappers {

  /** A value that may be absent (`undefined` in the page's TypeScript). */
  datatype Option<+T> = None | Some(value: T) {

    /** The value, or `default` when absent: the `??` operator. */
    function GetOr(default: T): (r: T)
      ensures Some? ==> r == value
      ensures None? ==> r == default
    {
      match this
      case Some(v) => v
      case None => default
    }
  }
}
